=== FILE: README.md ===
# CWE-598 teaching handlers, modelled in Dafny

The repository pairs deliberately vulnerable HTTP handlers with safe ones. The
vulnerable handlers take passwords, tokens, API keys and personal data from the
GET query string (CWE-598). The safe handlers move the same data into POST
bodies and the `Authorization` / `X-API-Key` headers, and they mask what they
log. There are four servers: safe and vulnerable, each in Go (net/http) and in
JavaScript (Express).

This project models each handler's decision logic as a total function. The
function takes an abstract request: method, headers, TLS/secure flag, URL with
its query parameters, and a decoded body. It returns an abstract outcome:

- a response with a status, a body and the log lines written on the way;
- a redirect;
- a crash, meaning a Go panic or a JavaScript exception thrown by the handler.

Middlewares return `Proceed` (call `next`) or `Halt(outcome)`.

Files and modules:

- `wrappers.dfy` (`Wrappers`): `Option`.
- `strings.dfy` (`Strings`): Go `HasPrefix`, `TrimPrefix` and `s[:n]` (which can panic); JavaScript `substring` (which clamps); Go `%d`.
- `js_values.dfy` (`JsValues`): JavaScript values and truthiness.
- `http.dfy` (`Http`): query parameters and rendered URLs, Go `Query().Get`, Express `req.query`, header lookup, outcomes.
- `safe_go.dfy` (`SafeGo`), `safe_js.dfy` (`SafeJs`), `vuln_go.dfy` (`VulnGo`), `vuln_js.dfy` (`VulnJs`): one module per source file.
- `contrast.dfy` (`Contrast`): the safe and vulnerable variants side by side.

"The password never appears in the log" is stated as non-interference: two
requests that differ only in the password produce identical log lines. A plain
substring statement would be false, because a password can occur inside a
username by coincidence.

Facts about the code that the model keeps:

- Masking uses a fixed, case-sensitive list of five keys, and only when the value is truthy.
- The mask string is `***MASKED***`.
- The "safe" token log keeps a ten-character prefix of the token.

## Model

| member | source | states |
|---|---|---|
| `SafeGo.Min` | samples/secure-patterns/sensitive-data-handling/safe-post-body-go.go:154-159 | the result is at most both arguments and equals one of them |
| `SafeGo.HttpsRedirect` | samples/secure-patterns/sensitive-data-handling/safe-post-body-go.go:36-45 | passes exactly when TLS is on or X-Forwarded-Proto is "https"; otherwise a 301 whose location is "https://" + Host followed by the request URI |
| `SafeGo.MaskSensitiveLog` | samples/secure-patterns/sensitive-data-handling/safe-post-body-go.go:50-53 | the login log line is the fixed prefix followed by the username and nothing else |
| `SafeGo.Login` | samples/secure-patterns/sensitive-data-handling/safe-post-body-go.go:57-97 | 405 exactly for non-POST; then 415 exactly for a Content-Type without the "application/json" prefix; then 400 exactly on a decode error; only past all three is anything logged (the username only); success with the token exactly for admin/secret123; on failure still 200 and no token field |
| `SafeGo.LoginLogIgnoresPassword` | samples/secure-patterns/sensitive-data-handling/safe-post-body-go.go:80-81 | two login bodies differing only in the password log the same lines |
| `SafeGo.BearerToken` | samples/secure-patterns/sensitive-data-handling/safe-post-body-go.go:103-121 | a token is extracted exactly when the header starts with "Bearer " and has more after it; then header == "Bearer " + token with a non-empty token |
| `SafeGo.BearerRoundTrip` | samples/secure-patterns/sensitive-data-handling/safe-post-body-go.go:110-115 | for every non-empty token, extracting from "Bearer " + token gives the token back |
| `SafeGo.TokenPreview` | samples/secure-patterns/sensitive-data-handling/safe-post-body-go.go:124 | the `min`-bounded slice never panics and is a prefix of the token of length min(10, len) |
| `SafeGo.ShortBearerTokenLoggedWhole` | samples/secure-patterns/sensitive-data-handling/safe-post-body-go.go:123-124 | the header "Bearer abc" is logged as "API request with token: abc...", the whole token |
| `SafeGo.WithheldPreview` | samples/secure-patterns/sensitive-data-handling/safe-post-body-go.go:123-124 | the corrected preview is a prefix of the token, strictly shorter than any non-empty token, and equals the current preview for tokens over ten characters |
| `SafeGo.ApiHandlerWithheld` | samples/secure-patterns/sensitive-data-handling/safe-post-body-go.go:101-129 | the corrected handler accepts and refuses exactly what ApiHandler does, never logs a whole token, and equals ApiHandler for tokens over ten characters |
| `SafeGo.ApiHandler` | samples/secure-patterns/sensitive-data-handling/safe-post-body-go.go:101-129 | never crashes; 200 exactly when a bearer token is extracted, 401 with no log otherwise; on 200 the only log line carries the bounded preview |
| `SafeGo.UserUpdate` | samples/secure-patterns/sensitive-data-handling/safe-post-body-go.go:132-152 | 405 exactly unless PUT or POST, then 400 exactly on decode error; on success the single log line is built from the field count |
| `SafeGo.UserUpdateLogOnlyCount` | samples/secure-patterns/sensitive-data-handling/safe-post-body-go.go:147-148 | two updates log the same line if and only if they have the same number of fields, so no field value is logged |
| `Strings.DecimalString` | samples/secure-patterns/sensitive-data-handling/safe-post-body-go.go:148 | the `%d` rendering is a non-empty string of digits with no leading zero |
| `Strings.DecimalRoundTrip` | samples/secure-patterns/sensitive-data-handling/safe-post-body-go.go:148 | reading the rendered count back gives the count |
| `Strings.TrimPrefix` | samples/secure-patterns/sensitive-data-handling/safe-post-body-go.go:115 | with the prefix present, prefix + result is the input; otherwise the input is unchanged |
| `Strings.GoSliceTo` | samples/vulnerabilities/query-string-exposure/vuln-598-go.go:51 | `s[:n]` is defined exactly for 0 <= n <= len(s) and then is the prefix of length n |
| `Strings.JsSubstring` | samples/secure-patterns/sensitive-data-handling/safe-post-body-javascript.js:122-125 | `substring(0, n)` is the prefix clamped to the length; `substring(7)` is the suffix after 7 characters; never longer than the input |
| `SafeJs.HttpsRedirect` | samples/secure-patterns/sensitive-data-handling/safe-post-body-javascript.js:27-38 | passes exactly when secure, forwarded-proto is "https" or NODE_ENV is "development"; otherwise a 301 to "https://" + host (the text "undefined" when the host header is absent) followed by the URL |
| `SafeJs.MaskFields` | samples/secure-patterns/sensitive-data-handling/safe-post-body-javascript.js:49-53 | the forEach over any field list keeps the key set; it masks exactly the listed keys with truthy values and copies every other entry |
| `SafeJs.MaskSensitiveData` | samples/secure-patterns/sensitive-data-handling/safe-post-body-javascript.js:45-56 | same key set as the input; password, token, secret, apiKey and ssn with truthy values become "***MASKED***"; every other entry is copied |
| `SafeJs.MaskMatchesReference` | samples/secure-patterns/sensitive-data-handling/safe-post-body-javascript.js:45-56 | the loop over the field list equals the key-by-key reference definition |
| `SafeJs.MaskIdempotent` | samples/secure-patterns/sensitive-data-handling/safe-post-body-javascript.js:45-56 | masking twice equals masking once |
| `SafeJs.Login` | samples/secure-patterns/sensitive-data-handling/safe-post-body-javascript.js:67-95 | 400 exactly when username or password is falsy, with nothing logged; success exactly for the strings admin/secret123, 401 otherwise; the logged body always shows the password as the mask |
| `SafeJs.MaskIgnoresPassword` | samples/secure-patterns/sensitive-data-handling/safe-post-body-javascript.js:49-53 | any two truthy passwords are masked to the same record |
| `SafeJs.LoginLogIgnoresPassword` | samples/secure-patterns/sensitive-data-handling/safe-post-body-javascript.js:78-80 | bodies differing only in a truthy password produce identical log lines |
| `SafeJs.BearerToken` | samples/secure-patterns/sensitive-data-handling/safe-post-body-javascript.js:107-122 | a token is extracted exactly when the header is present and starts with "Bearer "; then header == "Bearer " + token, with the empty token allowed |
| `SafeJs.BearerRoundTrip` | samples/secure-patterns/sensitive-data-handling/safe-post-body-javascript.js:116-122 | every token, including the empty one, is recovered from "Bearer " + token |
| `SafeJs.TokenPreview` | samples/secure-patterns/sensitive-data-handling/safe-post-body-javascript.js:125 | the preview is a prefix of the token of length min(10, length) |
| `SafeJs.ApiData` | samples/secure-patterns/sensitive-data-handling/safe-post-body-javascript.js:105-132 | 200 exactly when a bearer token is extracted, 401 with no log otherwise; on 200 the log carries the preview followed by "..." |
| `SafeJs.ApiKeyAuth` | samples/secure-patterns/sensitive-data-handling/safe-post-body-javascript.js:138-154 | proceeds exactly when x-api-key is "valid-api-key"; a missing, empty or wrong key halts with 401 |
| `SafeJs.Protected` | samples/secure-patterns/sensitive-data-handling/safe-post-body-javascript.js:159-163 | the protected route answers 200 exactly for the valid key, 401 otherwise |
| `SafeJs.UpdateProfile` | samples/secure-patterns/sensitive-data-handling/safe-post-body-javascript.js:173-184 | always 200 with the fixed success body; logs exactly one line, the label followed by the masked body: listed keys with truthy values show the mask, every other entry (phone, email) is logged as sent |
| `SafeJs.UpdateProfileLogIgnoresSensitive` | samples/secure-patterns/sensitive-data-handling/safe-post-body-javascript.js:177-178 | two updates that differ only in the truthy values of listed keys log the same line |
| `Http.GoQueryGet` | samples/vulnerabilities/query-string-exposure/vuln-598-go.go:25-26 | the value of the first parameter with the key, or "" when the key is absent |
| `Http.ExpressQueryGet` | samples/vulnerabilities/query-string-exposure/vuln-598-javascript.js:24 | undefined exactly when the key is absent; the string itself when it is sent once; an array exactly when it is sent twice or more, holding the values as strings in sending order |
| `Http.ValuesForHeadIsGoValue` | samples/vulnerabilities/query-string-exposure/vuln-598-go.go:25-26 | when a key was sent, its first value in Express's list is the value Go's `Query().Get` returns |
| `Http.ValuesForConcat` | samples/vulnerabilities/query-string-exposure/vuln-598-javascript.js:24 | the values sent for a key keep sending order: those of a concatenation are those of each part, one after the other |
| `Http.ParamInUrl` | samples/vulnerabilities/query-string-exposure/vuln-598-go.go:29 | every query parameter occurs as key=value in the rendered URL |
| `VulnGo.Login` | samples/vulnerabilities/query-string-exposure/vuln-598-go.go:23-37 | logs the full URL; 200 exactly when the first username/password values are admin/secret123, 401 otherwise |
| `VulnGo.LoginIgnoresMethod` | samples/vulnerabilities/query-string-exposure/vuln-598-go.go:23-36 | every method gets the same outcome, so GET reaches authentication |
| `VulnGo.LoginLogLeaksPassword` | samples/vulnerabilities/query-string-exposure/vuln-598-go.go:25-29 | every password sent in the query occurs as "password=" + value in the log line |
| `VulnGo.ApiHandlerAsWritten` | samples/vulnerabilities/query-string-exposure/vuln-598-go.go:41-52 | 401 exactly for an empty token; a panic exactly for tokens of 1 to 9 characters; 200 exactly for tokens of 10 or more (Go counts bytes, so these thresholds are exact for ASCII tokens) |
| `VulnGo.ShortTokenPanics` | samples/vulnerabilities/query-string-exposure/vuln-598-go.go:51 | `?token=abc` makes the handler as written panic |
| `VulnGo.ApiHandler` | samples/vulnerabilities/query-string-exposure/vuln-598-go.go:41-52 | with the slice bounded: never crashes; 401 exactly for an empty token, otherwise 200 echoing the bounded preview |
| `VulnGo.ApiHandlerAgreesWhenInBounds` | samples/vulnerabilities/query-string-exposure/vuln-598-go.go:45-51 | wherever the handler as written does not panic, the bounded version gives the same outcome |
| `VulnGo.UserUpdate` | samples/vulnerabilities/query-string-exposure/vuln-598-go.go:56-62 | always 200 with no validation; the ssn and phone query values occur verbatim in the response |
| `VulnJs.Login` | samples/vulnerabilities/query-string-exposure/vuln-598-javascript.js:22-35 | logs the original URL; 200 exactly when req.query.username is "admin" and req.query.password is "secret123", 401 otherwise |
| `VulnJs.RepeatedPasswordRefused` | samples/vulnerabilities/query-string-exposure/vuln-598-javascript.js:24-30 | a login that sends password twice is refused, because the value is then an array |
| `VulnJs.RepeatedKeyIsArray` | samples/vulnerabilities/query-string-exposure/vuln-598-javascript.js:24 | a parameter sent twice reads as an array |
| `VulnJs.ApiData` | samples/vulnerabilities/query-string-exposure/vuln-598-javascript.js:41-54 | 401 exactly for a falsy token; a crash exactly for a repeated token; otherwise 200 with tokenPreview = first min(10, length) characters + "..." |
| `VulnJs.External` | samples/vulnerabilities/query-string-exposure/vuln-598-javascript.js:60-70 | 401 exactly when api_key is falsy, otherwise 200 |
| `VulnJs.ExternalRefusesOnlyMissingKey` | samples/vulnerabilities/query-string-exposure/vuln-598-javascript.js:62-66 | refused exactly when api_key is not sent, or sent once and empty |
| `VulnJs.Payment` | samples/vulnerabilities/query-string-exposure/vuln-598-javascript.js:76-83 | always 200 with the body {message: "Payment processed"} and no validation, after logging the full URL |
| `VulnJs.LogLinesLeakQuery` | samples/vulnerabilities/query-string-exposure/vuln-598-javascript.js:27 | every query parameter, card number and CVV included, occurs verbatim in the /login log line and in the /payment log line (line 80) |
| `Contrast.GoLoginLogContrast` | samples/vulnerabilities/query-string-exposure/vuln-598-go.go:23-36 | for the same credential, the query login logs "password=" + password while the body login logs only the username; both accept the same credential |
| `Contrast.GoLoginMethodContrast` | samples/secure-patterns/sensitive-data-handling/safe-post-body-go.go:59-62 | a GET is refused with 405 and nothing logged by the safe login, but is logged and authenticated by the vulnerable one |
| `Contrast.PreviewsAgree` | samples/secure-patterns/sensitive-data-handling/safe-post-body-go.go:124 | the Go min-bounded slice and the Express substring(0, 10) give the same preview, the first min(10, length) characters |
| `Contrast.BareBearerContrast` | samples/secure-patterns/sensitive-data-handling/safe-post-body-go.go:118-121 | the header "Bearer " alone gets 401 from Go; Express accepts it and logs the preview "..." |
| `Contrast.HttpsRedirectsAgree` | samples/secure-patterns/sensitive-data-handling/safe-post-body-javascript.js:27-38 | outside development mode, the Go and Express middlewares make the same decision with the same target for the same connection |
| `Contrast.DevelopmentBypass` | samples/secure-patterns/sensitive-data-handling/safe-post-body-javascript.js:32 | with NODE_ENV=development, Express passes plain HTTP that Go would redirect |
| `JsValues.Truthy` | samples/secure-patterns/sensitive-data-handling/safe-post-body-javascript.js:71 | the values `!x` treats as false are exactly undefined, null, false, 0 and ""; also behind lines 50, 109 and 142 and the vulnerable routes |
| `Strings.HasPrefix` | samples/secure-patterns/sensitive-data-handling/safe-post-body-go.go:110 | the prefix test holds exactly when every character of the prefix matches the start of the string, and then the string is prefix + rest; also models line 66 and `startsWith` in the Express sample |
| `JsValues.Get` | samples/secure-patterns/sensitive-data-handling/safe-post-body-javascript.js:50 | a property read returns the stored value, or undefined when the key is missing; the read `masked[field]` performs (used by `SafeJs.MaskOne`) and the destructuring of `req.body` at line 68 performs (used by `SafeJs.Login`) |
| `SafeGo.LoginResponse` | samples/secure-patterns/sensitive-data-handling/safe-post-body-go.go:28-32 | the encoded response holds success and message, and holds a token field exactly when the token is non-empty (`omitempty`), with that token as its value |
| `Http.RenderUrl` | samples/vulnerabilities/query-string-exposure/vuln-598-go.go:29 | without query parameters the URL is the path; otherwise the path, "?" and the query string |
| `Http.HeaderGet` | samples/secure-patterns/sensitive-data-handling/safe-post-body-go.go:65 | the header's value, or "" when it is absent |
| `Http.JsHeader` | samples/secure-patterns/sensitive-data-handling/safe-post-body-javascript.js:107 | absent exactly when the header was not sent, otherwise its value |
| `Http.GoError` | samples/secure-patterns/sensitive-data-handling/safe-post-body-go.go:60 | a response with the given status and logs whose text body is the message followed by a newline |
| `SafeJs.HostText` | samples/secure-patterns/sensitive-data-handling/safe-post-body-javascript.js:36 | the host header's value, or the text "undefined" when it is absent |
| `Contrast.ShortTokensLoggedWhole` | samples/secure-patterns/sensitive-data-handling/safe-post-body-go.go:124 | in both languages a token of one to ten characters is logged in full (exact for ASCII tokens; Go counts bytes and JavaScript UTF-16 units) |
| `Contrast.ApiKeyContrast` | samples/secure-patterns/sensitive-data-handling/safe-post-body-javascript.js:138-154 | a non-empty key other than "valid-api-key" is refused by apiKeyAuth but accepted as api_key by the query-string route |
| `Contrast.UpdateLogContrast` | samples/secure-patterns/sensitive-data-handling/safe-post-body-go.go:147-148 | the Go update logs the same line for any phone number, while the Express update logs different lines for different phone numbers |

## Findings

| source | as written | input that shows it | evidently intended | confidence | as-written member | corrected member |
|---|---|---|---|---|---|---|
| samples/vulnerabilities/query-string-exposure/vuln-598-go.go:51 | `token[:10]` slices without a bound, so a non-empty token shorter than ten bytes panics the handler | `GET /api/data?token=abc` | a preview of at most ten characters, `token[:min(10, len(token))]`, as in the safe Go sample and the Express counterpart | not executed; high | `VulnGo.ApiHandlerAsWritten` (shown by `VulnGo.ShortTokenPanics`) | `VulnGo.ApiHandler` |
| samples/secure-patterns/sensitive-data-handling/safe-post-body-go.go:123-124 | the comment says the token is not logged in full, but `token[:min(10, len(token))]` is the whole token when it has ten bytes or fewer; the Express route (safe-post-body-javascript.js:124-125) does the same for tokens of ten UTF-16 units or fewer | `Authorization: Bearer abc` logs `API request with token: abc...` | a preview that never covers the whole token; the correction keeps at most min(10, length - 1) characters | not executed; medium | `SafeGo.ApiHandler` (shown by `SafeGo.ShortBearerTokenLoggedWhole` and `Contrast.ShortTokensLoggedWhole`) | `SafeGo.ApiHandlerWithheld` |

## Left out

- Server bootstrap and route registration (`main`, `ListenAndServe`, `app.listen`, `HandleFunc`, `app.get`/`post`/`put`): each Express route function assumes its route and method already matched. Express also serves HEAD for `app.get` routes; that is not modelled.
- JSON decoding is an input (`Option`: None is a decode error). JSON encoding is modelled as a field map, not as bytes. When the body is not JSON, Express's `req.body` is taken to be an object (the Express 4 default `{}`). Non-object JSON bodies are not modelled.
- The log sink: log lines are returned values. `console.log` formatting of objects is not rendered to text.
- `helmet()` and the trailing Referrer-Policy middleware: library behaviour and middleware ordering.
- Header-name case folding: headers arrive keyed by the canonical name (Go) or lower-case name (Node), one value per name.
- TLS is a boolean (`r.TLS != nil`, `req.secure`), and `NODE_ENV` is a parameter.
- Percent-encoding: query parameters are decoded pairs, and the URL is rendered from them verbatim. A real access log holds the encoded form, which equals the value for alphanumeric passwords. Go's `RequestURI` is taken to be this rendered URL. Express's bracket syntax (`a[b]=c`), its parameter limits, and Go keys without `=` are not modelled.
- JavaScript numbers are integers here: NaN, -0 and fractions are not modelled.
- String lengths and indices: Go's `len`, `s[:n]` and the bound in `min(10, len(token))` count bytes, and JavaScript's `substring` counts UTF-16 code units. The model counts characters. So the panic threshold of `token[:10]`, the preview length and the "logged whole" bound match the source only for ASCII tokens. For example, `ééééé` is 10 bytes, so Go does not panic on it, but the model does. A slice that cuts a multi-byte character is not modelled either.
- What happens after a crash: Go's recovery of a handler panic and Express's router passing the thrown error to its default handler (a 500 page) are both the `Crash` outcome, without response bytes. `Crash.logs` holds only the handler's own log calls. The lines the frameworks write themselves (net/http's "http: panic serving …", Express's stack trace) are not modelled; neither contains the token.
- Response headers (`Content-Type`) and the HTML body that `http.Redirect` writes.
- The Express `/api/data` route has no corrected twin for the short-token finding. `Contrast.PreviewsAgree` shows that it logs the same preview as the Go handler, so the Go correction applies to it unchanged.
- SafeGo.MaskSensitiveLog: modelled at its one call site, with its one format string, not as a general `Printf`.

=== FILE: contrast.dfy ===
/**
 * The safe and vulnerable samples side by side: what each logs for the same
 * credential, where the Go and Express variants agree, and where they differ.
 */
module Contrast {
  import opened Wrappers
  import opened Strings
  import opened JsValues
  import opened Http
  import SafeGo
  import SafeJs
  import VulnGo
  import VulnJs

  /** A GET login carrying the credential in the query string. */
  function QueryLogin(username: string, password: string): GoRequest {
    GoRequest("GET", map[], false, "localhost",
              Url("/login", [Param("username", username), Param("password", password)]))
  }

  /** A JSON POST login carrying the same credential in the body. */
  function BodyLogin(): GoRequest {
    GoRequest("POST", map["Content-Type" := "application/json"], false, "localhost", Url("/api/login", []))
  }

  /**
   * For the same credential, the query-string login logs the password
   * verbatim while the body login logs the username and nothing else; both
   * accept exactly the fixed credential.
   */
  lemma GoLoginLogContrast(username: string, password: string)
    ensures Occurs("password=" + password, VulnGo.Login(QueryLogin(username, password)).logs[0].text)
    ensures SafeGo.Login(BodyLogin(), Some(SafeGo.LoginRequest(username, password))).logs
            == [Printf("Login attempt for user: " + username)]
    ensures (VulnGo.Login(QueryLogin(username, password)).status == StatusOK)
            == SafeGo.LoginSucceeded(SafeGo.Login(BodyLogin(), Some(SafeGo.LoginRequest(username, password))))
  {
    var r := QueryLogin(username, password);
    assert r.url.query[1].key == "password";
    VulnGo.LoginLogLeaksPassword(r, 1);
    assert HasPrefix(HeaderGet(BodyLogin().header, "Content-Type"), "application/json");
    assert GoQueryGet(r.url.query, "username") == username by {
      assert r.url.query[0].key == "username";
    }
    assert GoQueryGet(r.url.query, "password") == password by {
      assert r.url.query[0].key != "password";
    }
  }

  /** A GET is refused by the safe login before anything is logged, but reaches authentication in the vulnerable one. */
  lemma GoLoginMethodContrast(r: GoRequest, decoded: Option<SafeGo.LoginRequest>)
    requires r.httpMethod == "GET"
    ensures SafeGo.Login(r, decoded).status == StatusMethodNotAllowed && SafeGo.Login(r, decoded).logs == []
    ensures VulnGo.Login(r).logs == [VulnGo.LoginLogLine(r)]
  {
  }

  /** The Go `min`-bounded slice and the Express `substring(0, 10)` log the same preview. */
  lemma PreviewsAgree(token: string)
    ensures SafeGo.TokenPreview(token) == SafeJs.TokenPreview(token)
    ensures SafeJs.TokenPreview(token) == token[..SafeGo.Min(PreviewLength, |token|)]
  {
  }

  /**
   * The header "Bearer " with nothing after it: the Go handler refuses it as
   * an empty token, the Express route accepts it and logs the preview "...".
   */
  lemma BareBearerContrast(g: GoRequest, j: JsRequest)
    requires HeaderGet(g.header, "Authorization") == "Bearer "
    requires JsHeader(j.headers, "authorization") == Some("Bearer ")
    ensures SafeGo.ApiHandler(g).status == StatusUnauthorized
    ensures SafeJs.ApiData(j).status == StatusOK
    ensures SafeJs.ApiData(j).logs == [ConsoleLog([Str("API request with token:"), Str("...")])]
  {
    SafeJs.BearerRoundTrip("");
    assert "Bearer " + "" == "Bearer ";
    assert SafeJs.TokenPreview("") == "";
    assert SafeJs.TokenPreview("") + "..." == "...";
  }

  /**
   * Outside development mode the two HTTPS middlewares make the same decision
   * for the same connection, and redirect to the same place.
   */
  lemma HttpsRedirectsAgree(g: GoRequest, j: JsRequest, nodeEnv: Option<string>)
    requires nodeEnv != Some("development")
    requires g.tls == j.secure && g.url == j.url
    requires JsHeader(j.headers, "host") == Some(g.host)
    requires HeaderGet(g.header, "X-Forwarded-Proto") == JsHeader(j.headers, "x-forwarded-proto").GetOr("")
    ensures SafeGo.HttpsRedirect(g) == SafeJs.HttpsRedirect(j, nodeEnv)
  {
  }

  /** With NODE_ENV=development the Express middleware lets plain HTTP through; the Go one has no such switch. */
  lemma DevelopmentBypass(g: GoRequest, j: JsRequest)
    requires !g.tls && HeaderGet(g.header, "X-Forwarded-Proto") != "https"
    ensures SafeGo.HttpsRedirect(g).Halt?
    ensures SafeJs.HttpsRedirect(j, Some("development")) == Proceed
  {
  }

  /**
   * Both "safe" previews log a token of one to ten characters in full,
   * although both handlers mean to keep the whole token out of the log.
   */
  lemma ShortTokensLoggedWhole(token: string)
    requires 0 < |token| <= PreviewLength
    ensures SafeGo.TokenPreview(token) == token
    ensures SafeJs.TokenPreview(token) == token
  {
  }

  /**
   * Any non-empty API key other than "valid-api-key" is refused by the header
   * check but accepted by the query-string route, which never compares it.
   */
  lemma ApiKeyContrast(key: string, j: JsRequest)
    requires key != "" && key != SafeJs.ValidApiKey
    requires JsHeader(j.headers, "x-api-key") == Some(key)
    requires j.url.query == [Param("api_key", key)]
    ensures SafeJs.ApiKeyAuth(j).Halt? && SafeJs.ApiKeyAuth(j).outcome.status == StatusUnauthorized
    ensures VulnJs.External(j).status == StatusOK
  {
    assert ValuesFor(j.url.query, "api_key") == [key] by {
      ValuesForSingle(Param("api_key", key), "api_key");
    }
  }

  /**
   * A profile update logs the phone number as sent in Express, while the Go
   * update handler logs the same line whatever the phone number is.
   */
  lemma UpdateLogContrast(g: GoRequest, j: JsRequest, p1: string, p2: string)
    requires g.httpMethod == "PUT"
    requires p1 != p2
    ensures SafeGo.UserUpdate(g, Some(map["phone" := p1])).logs == SafeGo.UserUpdate(g, Some(map["phone" := p2])).logs
    ensures SafeJs.UpdateProfile(j.(body := map["phone" := Str(p1)])).logs
            != SafeJs.UpdateProfile(j.(body := map["phone" := Str(p2)])).logs
  {
    var l1 := SafeJs.UpdateProfile(j.(body := map["phone" := Str(p1)])).logs;
    assert l1[0].args[1].fields["phone"] == Str(p1);
  }
}

=== FILE: http.dfy ===
/**
 * The abstract request and outcome shared by the four sample servers:
 * URLs with their query parameters, header lookup as each framework does it,
 * and what a handler produces (a response, a redirect, or a crash), together
 * with the lines it logs.
 */
module Http {
  import opened Wrappers
  import opened Strings
  import opened JsValues

  // ---------------------------------------------------------------- URLs

  /** One decoded query parameter `key=value`. */
  datatype Param = Param(key: string, value: string)

  /** A request target: path plus query parameters in the order they were sent. */
  datatype Url = Url(path: string, query: seq<Param>)

  function RenderParam(p: Param): string {
    p.key + "=" + p.value
  }

  /** The raw query string `k1=v1&k2=v2&...` (no percent-encoding). */
  function RenderQuery(ps: seq<Param>): string
    decreases |ps|
  {
    if |ps| == 0 then ""
    else if |ps| == 1 then RenderParam(ps[0])
    else RenderParam(ps[0]) + "&" + RenderQuery(ps[1..])
  }

  /**
   * The URL as logged by Go's `r.URL.String()` and Express's `req.originalUrl`:
   * the path, then `?` and the query string when there is one.
   */
  function RenderUrl(u: Url): (s: string)
    ensures |u.query| == 0 ==> s == u.path
    ensures |u.query| > 0 ==> HasPrefix(s, u.path + "?") && s[|u.path| + 1..] == RenderQuery(u.query)
  {
    if |u.query| == 0 then u.path else u.path + "?" + RenderQuery(u.query)
  }

  lemma OccursShift(t: string, s: string, pre: string, post: string)
    requires Occurs(t, s)
    ensures Occurs(t, pre + s + post)
  {
    var at :| 0 <= at <= |s| && HasPrefix(s[at..], t);
    var whole := pre + s + post;
    assert whole[|pre| + at..][..|t|] == s[at..][..|t|];
  }

  /** Every parameter, as `key=value`, occurs verbatim in the rendered query string. */
  lemma {:induction false} ParamInQuery(ps: seq<Param>, i: nat)
    requires i < |ps|
    ensures Occurs(RenderParam(ps[i]), RenderQuery(ps))
    decreases |ps|
  {
    var t := RenderParam(ps[i]);
    if i == 0 {
      var q := RenderQuery(ps);
      assert q[0..][..|t|] == t;
    } else {
      ParamInQuery(ps[1..], i - 1);
      assert ps[1..][i - 1] == ps[i];
      OccursShift(t, RenderQuery(ps[1..]), RenderParam(ps[0]) + "&", "");
      assert RenderParam(ps[0]) + "&" + RenderQuery(ps[1..]) + "" == RenderQuery(ps);
    }
  }

  /** Every query parameter, as `key=value`, occurs verbatim in the rendered URL. */
  lemma ParamInUrl(u: Url, i: nat)
    requires i < |u.query|
    ensures Occurs(RenderParam(u.query[i]), RenderUrl(u))
  {
    ParamInQuery(u.query, i);
    OccursShift(RenderParam(u.query[i]), RenderQuery(u.query), u.path + "?", "");
    assert u.path + "?" + RenderQuery(u.query) + "" == RenderUrl(u);
  }

  // ------------------------------------------------------ query lookup

  /** Index of the first parameter named `k`, if any. */
  function Find(ps: seq<Param>, k: string): (r: Option<nat>)
    ensures r.Some? ==> r.value < |ps| && ps[r.value].key == k
    ensures r.Some? ==> forall j :: 0 <= j < r.value ==> ps[j].key != k
    ensures r.None? ==> forall j :: 0 <= j < |ps| ==> ps[j].key != k
    decreases |ps|
  {
    if |ps| == 0 then None
    else if ps[0].key == k then Some(0)
    else
      match Find(ps[1..], k)
      case None => None
      case Some(i) => Some(i + 1)
  }

  /** Go's `r.URL.Query().Get(k)`: the first value for `k`, or "" when absent. */
  function GoQueryGet(ps: seq<Param>, k: string): (r: string)
    ensures forall i :: 0 <= i < |ps| && ps[i].key == k && (forall j :: 0 <= j < i ==> ps[j].key != k)
                        ==> r == ps[i].value
    ensures (forall i :: 0 <= i < |ps| ==> ps[i].key != k) ==> r == ""
  {
    match Find(ps, k)
    case Some(i) => ps[i].value
    case None => ""
  }

  /** All values sent for `k`, in sending order. */
  function ValuesFor(ps: seq<Param>, k: string): (r: seq<string>)
    ensures |r| <= |ps|
    ensures forall v :: v in r <==> Param(k, v) in ps
    ensures |r| == 0 <==> forall i :: 0 <= i < |ps| ==> ps[i].key != k
    decreases |ps|
  {
    if |ps| == 0 then []
    else if ps[0].key == k then [ps[0].value] + ValuesFor(ps[1..], k)
    else ValuesFor(ps[1..], k)
  }

  /**
   * ValuesFor keeps sending order: the values of a concatenation are the
   * values of each part, one after the other. With the one-parameter case
   * below this determines ValuesFor completely.
   */
  lemma {:induction false} ValuesForConcat(ps: seq<Param>, qs: seq<Param>, k: string)
    ensures ValuesFor(ps + qs, k) == ValuesFor(ps, k) + ValuesFor(qs, k)
    decreases |ps|
  {
    if |ps| == 0 {
      assert ps + qs == qs;
    } else {
      assert (ps + qs)[1..] == ps[1..] + qs;
      ValuesForConcat(ps[1..], qs, k);
    }
  }

  /** Express and Go agree on a key's first value: Go's `Get` is the head of the Express list. */
  lemma {:induction false} ValuesForHeadIsGoValue(ps: seq<Param>, k: string)
    requires |ValuesFor(ps, k)| > 0
    ensures ValuesFor(ps, k)[0] == GoQueryGet(ps, k)
    decreases |ps|
  {
    if ps[0].key != k {
      ValuesForHeadIsGoValue(ps[1..], k);
      assert Find(ps, k) == match Find(ps[1..], k) case None => None case Some(i) => Some(i + 1);
    }
  }

  /** A single parameter contributes its value exactly when its key is `k`. */
  lemma ValuesForSingle(p: Param, k: string)
    ensures ValuesFor([p], k) == if p.key == k then [p.value] else []
  {
    assert [p][1..] == [];
  }

  /**
   * Express's `req.query[k]`: `undefined` when `k` was not sent, the string
   * when it was sent once, an array of strings when it was repeated.
   */
  function ExpressQueryGet(ps: seq<Param>, k: string): (v: Value)
    ensures v == Undefined <==> forall i :: 0 <= i < |ps| ==> ps[i].key != k
    ensures v.Str? ==> Param(k, v.s) in ps
    ensures v.Undefined? || v.Str? || v.Arr?
    ensures |ValuesFor(ps, k)| == 1 ==> v == Str(ValuesFor(ps, k)[0])
    ensures v.Arr? <==> |ValuesFor(ps, k)| >= 2
    ensures v.Arr? ==> |v.items| == |ValuesFor(ps, k)| &&
                       forall i :: 0 <= i < |v.items| ==> v.items[i] == Str(ValuesFor(ps, k)[i])
  {
    var vs := ValuesFor(ps, k);
    if |vs| == 0 then Undefined
    else if |vs| == 1 then Str(vs[0])
    else Arr(seq(|vs|, i requires 0 <= i < |vs| => Str(vs[i])))
  }

  // ---------------------------------------------------------- requests

  /** Go's `r.Header.Get(name)` on a header map keyed by canonical name: "" when absent. */
  function HeaderGet(h: map<string, string>, name: string): (r: string)
    ensures name !in h ==> r == ""
    ensures name in h ==> r == h[name]
  {
    if name in h then h[name] else ""
  }

  /** Node's `req.headers[name]` on a header map keyed by lower-case name. */
  function JsHeader(h: map<string, string>, name: string): (r: Option<string>)
    ensures r.None? <==> name !in h
    ensures name in h ==> r == Some(h[name])
  {
    if name in h then Some(h[name]) else None
  }

  /** What a net/http handler reads: `r.Method` (httpMethod), `r.Header`, `r.TLS != nil`, `r.Host`, `r.URL`. */
  datatype GoRequest = GoRequest(httpMethod: string, header: map<string, string>, tls: bool, host: string, url: Url)

  /** What an Express handler reads: `req.secure`, `req.headers`, `req.url`, `req.body`. */
  datatype JsRequest = JsRequest(secure: bool, headers: map<string, string>, url: Url, body: map<string, Value>)

  // ---------------------------------------------------------- outcomes

  /** The fixed demo credential, issued token and header scheme shared by the samples. */
  const AdminUser := "admin"
  const AdminPassword := "secret123"
  const IssuedToken := "generated-jwt-token"
  const BearerPrefix := "Bearer "
  /** How many leading token characters the handlers echo or log. */
  const PreviewLength := 10

  const StatusOK := 200
  const StatusMovedPermanently := 301
  const StatusBadRequest := 400
  const StatusUnauthorized := 401
  const StatusMethodNotAllowed := 405
  const StatusUnsupportedMediaType := 415

  /** A response body: plain text, or a JSON object. */
  datatype Body = Text(text: string) | Json(fields: map<string, Value>)

  /** One log call: Go's `log.Printf` (formatted text) or `console.log(args...)`. */
  datatype LogLine = Printf(text: string) | ConsoleLog(args: seq<Value>)

  /**
   * What a handler does with a request. `Crash` is a Go panic or a
   * JavaScript exception thrown by the handler: the handler stops without
   * writing its response. Its logs are the handler's own log calls only.
   */
  datatype Outcome =
    | Respond(status: int, body: Body, logs: seq<LogLine>)
    | Redirect(status: int, location: string)
    | Crash(logs: seq<LogLine>, reason: string)

  /** A middleware either hands the request on (`next`) or ends it. */
  datatype Gate = Proceed | Halt(outcome: Outcome)

  /** Go's `http.Error(w, msg, code)`: plain text `msg` plus a newline. */
  function GoError(status: int, msg: string, logs: seq<LogLine>): (o: Outcome)
    ensures o.Respond? && o.status == status && o.logs == logs
    ensures o.body.Text? && HasPrefix(o.body.text, msg) && o.body.text[|msg|..] == "\n"
  {
    Respond(status, Text(msg + "\n"), logs)
  }
}

=== FILE: js_values.dfy ===
/**
 * JavaScript values as they reach the Express handlers: parsed JSON bodies,
 * `req.query` entries and header values. Numbers are integers here.
 */
module JsValues {

  datatype Value =
    | Undefined
    | Null
    | Bool(b: bool)
    | Num(n: int)
    | Str(s: string)
    | Arr(items: seq<Value>)
    | Obj(fields: map<string, Value>)

  /** JavaScript truthiness, as used by `if (x)` and `!x`. */
  predicate Truthy(v: Value)
    ensures !Truthy(v) <==> v in [Undefined, Null, Bool(false), Num(0), Str("")]
  {
    match v
    case Undefined => false
    case Null => false
    case Bool(b) => b
    case Num(n) => n != 0
    case Str(s) => s != ""
    case Arr(_) => true
    case Obj(_) => true
  }

  /** Property read `o[k]`: a missing own property reads as `undefined`. */
  function Get(o: map<string, Value>, k: string): (v: Value)
    ensures k !in o ==> v == Undefined
    ensures k in o ==> v == o[k]
  {
    if k in o then o[k] else Undefined
  }
}

=== FILE: safe_go.dfy ===
/**
 * The net/http server that carries credentials in POST bodies and the
 * Authorization header: HTTPS redirect middleware, the login, API and
 * user-update handlers, and the `min` helper used to bound the token preview.
 */
module SafeGo {
  import opened Wrappers
  import opened Strings
  import opened JsValues
  import opened Http

  /** The JSON login body after decoding. */
  datatype LoginRequest = LoginRequest(username: string, password: string)

  function Min(a: int, b: int): (r: int)
    ensures r <= a && r <= b
    ensures r == a || r == b
  {
    if a < b then a else b
  }

  // ------------------------------------------------------ HTTPS redirect

  /**
   * Plain-HTTP requests (no TLS, and no proxy saying `X-Forwarded-Proto: https`)
   * are sent a 301 to the same host and request URI over https; all others
   * go on to the wrapped handler.
   */
  function HttpsRedirect(r: GoRequest): (g: Gate)
    ensures g.Proceed? <==> r.tls || HeaderGet(r.header, "X-Forwarded-Proto") == "https"
    ensures g.Halt? ==> g.outcome.Redirect? && g.outcome.status == StatusMovedPermanently
    ensures g.Halt? ==> HasPrefix(g.outcome.location, "https://" + r.host)
    ensures g.Halt? ==> g.outcome.location[|"https://" + r.host|..] == RenderUrl(r.url)
  {
    if !r.tls && HeaderGet(r.header, "X-Forwarded-Proto") != "https" then
      Halt(Redirect(StatusMovedPermanently, "https://" + r.host + RenderUrl(r.url)))
    else
      Proceed
  }

  // --------------------------------------------------------------- login

  /** `maskSensitiveLog` at its one call site: only the username is formatted in. */
  function MaskSensitiveLog(username: string): (l: LogLine)
    ensures l.Printf? && HasPrefix(l.text, "Login attempt for user: ")
    ensures l.text[|"Login attempt for user: "|..] == username
  {
    Printf("Login attempt for user: " + username)
  }

  /** The encoded `LoginResponse`; `token` is omitted when empty (`omitempty`). */
  function LoginResponse(success: bool, message: string, token: string): (b: Body)
    ensures b.Json? && b.fields.Keys == {"success", "message"} + (if token == "" then {} else {"token"})
    ensures Get(b.fields, "success") == Bool(success) && Get(b.fields, "message") == Str(message)
    ensures "token" in b.fields <==> token != ""
    ensures "token" in b.fields ==> b.fields["token"] == Str(token)
  {
    Json(map["success" := Bool(success), "message" := Str(message)]
         + (if token == "" then map[] else map["token" := Str(token)]))
  }

  predicate LoginSucceeded(o: Outcome) {
    o.Respond? && o.body.Json? && Get(o.body.fields, "success") == Bool(true)
  }

  predicate JsonContentType(r: GoRequest) {
    HasPrefix(HeaderGet(r.header, "Content-Type"), "application/json")
  }

  /**
   * `safeLoginHandler`. Checks run in a fixed order and the first failure
   * ends the request: method, then Content-Type, then body decoding
   * (`decoded` is None when the JSON decoder reports an error). Only then is
   * the username logged and the fixed credential compared; a credential
   * mismatch is still a 200 with `success: false`.
   */
  function Login(r: GoRequest, decoded: Option<LoginRequest>): (o: Outcome)
    ensures o.Respond?
    ensures o.status == StatusMethodNotAllowed <==> r.httpMethod != "POST"
    ensures o.status == StatusUnsupportedMediaType <==> r.httpMethod == "POST" && !JsonContentType(r)
    ensures o.status == StatusBadRequest <==> r.httpMethod == "POST" && JsonContentType(r) && decoded.None?
    ensures o.status == StatusOK <==> r.httpMethod == "POST" && JsonContentType(r) && decoded.Some?
    ensures o.status != StatusOK ==> o.logs == []
    ensures o.status == StatusOK ==> o.logs == [MaskSensitiveLog(decoded.value.username)]
    ensures LoginSucceeded(o) <==>
              r.httpMethod == "POST" && JsonContentType(r) && decoded == Some(LoginRequest(AdminUser, AdminPassword))
    ensures LoginSucceeded(o) ==> Get(o.body.fields, "token") == Str(IssuedToken)
    ensures o.body.Json? && !LoginSucceeded(o) ==> "token" !in o.body.fields
  {
    if r.httpMethod != "POST" then
      GoError(StatusMethodNotAllowed, "Method not allowed. Use POST.", [])
    else if !JsonContentType(r) then
      GoError(StatusUnsupportedMediaType, "Content-Type must be application/json", [])
    else
      match decoded
      case None => GoError(StatusBadRequest, "Invalid request body", [])
      case Some(req) =>
        var logs := [MaskSensitiveLog(req.username)];
        if req.username == AdminUser && req.password == AdminPassword then
          Respond(StatusOK, LoginResponse(true, "Login successful", IssuedToken), logs)
        else
          Respond(StatusOK, LoginResponse(false, "Invalid credentials", ""), logs)
  }

  /**
   * The password never reaches the log: two login bodies that differ only in
   * the password produce the same log lines.
   */
  lemma LoginLogIgnoresPassword(r: GoRequest, username: string, p1: string, p2: string)
    ensures Login(r, Some(LoginRequest(username, p1))).logs == Login(r, Some(LoginRequest(username, p2))).logs
  {
  }

  // ----------------------------------------------------------------- API

  /**
   * The token of an `Authorization` header value: present exactly when the
   * header is non-empty, starts with "Bearer " and leaves a non-empty token
   * after `TrimPrefix`.
   */
  function BearerToken(header: string): (t: Option<string>)
    ensures t.Some? <==> HasPrefix(header, BearerPrefix) && |header| > |BearerPrefix|
    ensures t.Some? ==> t.value != "" && header == BearerPrefix + t.value
  {
    if header == "" then None
    else if !HasPrefix(header, BearerPrefix) then None
    else
      var token := TrimPrefix(header, BearerPrefix);
      if token == "" then None else Some(token)
  }

  /** Building the header from a non-empty token and parsing it back gives the token. */
  lemma BearerRoundTrip(token: string)
    requires token != ""
    ensures BearerToken(BearerPrefix + token) == Some(token)
  {
    assert (BearerPrefix + token)[..|BearerPrefix|] == BearerPrefix;
  }

  /** `token[:min(10, len(token))]`, which Go evaluates without panicking for every token. */
  function TokenPreview(token: string): (p: string)
    ensures |p| == Min(PreviewLength, |token|)
    ensures HasPrefix(token, p)
  {
    match GoSliceTo(token, Min(PreviewLength, |token|))
    case Some(p) => p
    case None => assert false; ""
  }

  /**
   * `safeAPIHandler`: 401 for a missing or malformed Authorization header or
   * an empty token; otherwise logs the first (at most) ten characters of the
   * token and answers 200. It never panics.
   */
  function ApiHandler(r: GoRequest): (o: Outcome)
    ensures o.Respond?
    ensures o.status == StatusOK <==> BearerToken(HeaderGet(r.header, "Authorization")).Some?
    ensures o.status != StatusOK ==> o.status == StatusUnauthorized && o.logs == []
    ensures o.status == StatusOK ==>
              var token := BearerToken(HeaderGet(r.header, "Authorization")).value;
              o.logs == [Printf("API request with token: " + TokenPreview(token) + "...")]
  {
    var authHeader := HeaderGet(r.header, "Authorization");
    if authHeader == "" then
      GoError(StatusUnauthorized, "Authorization header required", [])
    else if !HasPrefix(authHeader, BearerPrefix) then
      GoError(StatusUnauthorized, "Invalid authorization format. Use 'Bearer <token>'", [])
    else
      var token := TrimPrefix(authHeader, BearerPrefix);
      if token == "" then
        GoError(StatusUnauthorized, "Token is empty", [])
      else
        match GoSliceTo(token, Min(PreviewLength, |token|))
        case None => Crash([], "slice bounds out of range")
        case Some(preview) =>
          Respond(StatusOK, Text(ApiResponseText), [Printf("API request with token: " + preview + "...")])
  }

  const ApiResponseText := "{\"data\": \"Sensitive API response\", \"status\": \"ok\"}"

  /**
   * The log is meant never to hold the whole token, but a token of at most
   * ten characters is logged in full: `Authorization: Bearer abc` logs "abc...".
   */
  lemma ShortBearerTokenLoggedWhole(r: GoRequest)
    requires HeaderGet(r.header, "Authorization") == "Bearer abc"
    ensures ApiHandler(r).logs == [Printf("API request with token: abc...")]
  {
    assert "Bearer abc" == BearerPrefix + "abc";
    BearerRoundTrip("abc");
    var p := TokenPreview("abc");
    assert |p| == 3 && p == "abc"[..3];
    assert "API request with token: " + p + "..." == "API request with token: abc...";
  }

  /**
   * A preview that always withholds at least the last character: the first
   * min(10, len - 1) characters. For tokens longer than ten characters it is
   * the preview the handler logs today.
   */
  function WithheldPreview(token: string): (p: string)
    ensures HasPrefix(token, p)
    ensures token != "" ==> |p| < |token|
    ensures |token| > PreviewLength ==> p == TokenPreview(token)
  {
    if token == "" then "" else token[..Min(PreviewLength, |token| - 1)]
  }

  /**
   * `safeAPIHandler` with the preview bounded so that the log never holds a
   * whole token. It accepts and refuses exactly the requests `ApiHandler`
   * does, and is identical to it for tokens longer than ten characters.
   */
  function ApiHandlerWithheld(r: GoRequest): (o: Outcome)
    ensures o.Respond?
    ensures o.status == ApiHandler(r).status
    ensures o.status != StatusOK ==> o == ApiHandler(r)
    ensures o.status == StatusOK ==>
              var token := BearerToken(HeaderGet(r.header, "Authorization")).value;
              && o.logs == [Printf("API request with token: " + WithheldPreview(token) + "...")]
              && |WithheldPreview(token)| < |token|
              && (|token| > PreviewLength ==> o == ApiHandler(r))
  {
    match BearerToken(HeaderGet(r.header, "Authorization"))
    case None => ApiHandler(r)
    case Some(token) =>
      Respond(StatusOK, Text(ApiResponseText), [Printf("API request with token: " + WithheldPreview(token) + "...")])
  }

  // --------------------------------------------------------- user update

  function UpdateLogLine(fieldCount: nat): LogLine {
    Printf("User update request received (fields: " + DecimalString(fieldCount) + ")")
  }

  /**
   * `safeUserUpdateHandler`: 405 unless PUT or POST, then 400 when the body
   * does not decode to a string map; otherwise logs only the number of fields.
   */
  function UserUpdate(r: GoRequest, decoded: Option<map<string, string>>): (o: Outcome)
    ensures o.Respond?
    ensures o.status == StatusMethodNotAllowed <==> r.httpMethod != "PUT" && r.httpMethod != "POST"
    ensures o.status == StatusBadRequest <==> (r.httpMethod == "PUT" || r.httpMethod == "POST") && decoded.None?
    ensures o.status == StatusOK <==> (r.httpMethod == "PUT" || r.httpMethod == "POST") && decoded.Some?
    ensures o.status != StatusOK ==> o.logs == []
    ensures o.status == StatusOK ==> o.logs == [UpdateLogLine(|decoded.value|)]
  {
    if r.httpMethod != "PUT" && r.httpMethod != "POST" then
      GoError(StatusMethodNotAllowed, "Method not allowed. Use PUT or POST.", [])
    else
      match decoded
      case None => GoError(StatusBadRequest, "Invalid request body", [])
      case Some(data) =>
        Respond(StatusOK, Text("{\"success\": true, \"message\": \"User info updated\"}"),
                [UpdateLogLine(|data|)])
  }

  /**
   * No field value reaches the log: two updates with the same number of
   * fields log the same line, and the logged count can be read back exactly.
   */
  lemma UserUpdateLogOnlyCount(r: GoRequest, d1: map<string, string>, d2: map<string, string>)
    requires r.httpMethod == "PUT" || r.httpMethod == "POST"
    ensures |d1| == |d2| ==> UserUpdate(r, Some(d1)).logs == UserUpdate(r, Some(d2)).logs
    ensures UserUpdate(r, Some(d1)).logs == UserUpdate(r, Some(d2)).logs ==> |d1| == |d2|
  {
    if UserUpdate(r, Some(d1)).logs == UserUpdate(r, Some(d2)).logs {
      var s1 := DecimalString(|d1|);
      var s2 := DecimalString(|d2|);
      var pre := "User update request received (fields: ";
      assert pre + s1 + ")" == pre + s2 + ")";
      assert s1 == (pre + s1 + ")")[|pre|..|pre| + |s1|];
      assert |s1| == |s2|;
      assert s2 == (pre + s2 + ")")[|pre|..|pre| + |s2|];
      DecimalInjective(|d1|, |d2|);
    }
  }
}

=== FILE: safe_js.dfy ===
/**
 * The Express server that carries credentials in bodies and headers: HTTPS
 * redirect middleware, `maskSensitiveData`, the login, bearer-token, API-key
 * and profile-update routes.
 */
module SafeJs {
  import opened Wrappers
  import opened Strings
  import opened JsValues
  import opened Http

  const ValidApiKey := "valid-api-key"
  const MaskToken := "***MASKED***"

  /** The keys `maskSensitiveData` masks, in its iteration order; matching is exact and case-sensitive. */
  const SensitiveFields: seq<string> := ["password", "token", "secret", "apiKey", "ssn"]

  // ------------------------------------------------------ HTTPS redirect

  /** `${req.headers.host}`: an absent header interpolates as the text "undefined". */
  function HostText(r: JsRequest): (h: string)
    ensures "host" in r.headers ==> h == r.headers["host"]
    ensures "host" !in r.headers ==> h == "undefined"
  {
    match JsHeader(r.headers, "host")
    case Some(h) => h
    case None => "undefined"
  }

  /**
   * `httpsRedirectMiddleware`: passes secure requests, requests a proxy marks
   * `x-forwarded-proto: https`, and every request when NODE_ENV is
   * "development"; anything else gets a 301 to https on the same host and URL.
   */
  function HttpsRedirect(r: JsRequest, nodeEnv: Option<string>): (g: Gate)
    ensures g.Proceed? <==>
              r.secure || JsHeader(r.headers, "x-forwarded-proto") == Some("https") || nodeEnv == Some("development")
    ensures g.Halt? ==> g.outcome.Redirect? && g.outcome.status == StatusMovedPermanently
    ensures g.Halt? && "host" in r.headers ==> HasPrefix(g.outcome.location, "https://" + r.headers["host"])
    ensures g.Halt? && "host" !in r.headers ==> HasPrefix(g.outcome.location, "https://undefined")
    ensures g.Halt? ==> g.outcome.location[|"https://" + HostText(r)|..] == RenderUrl(r.url)
  {
    if r.secure || JsHeader(r.headers, "x-forwarded-proto") == Some("https") || nodeEnv == Some("development") then
      Proceed
    else
      Halt(Redirect(StatusMovedPermanently, "https://" + HostText(r) + RenderUrl(r.url)))
  }

  // ------------------------------------------------------------- masking

  /** One `forEach` step: `if (masked[field]) masked[field] = "***MASKED***"`. */
  function MaskOne(m: map<string, Value>, field: string): (r: map<string, Value>)
    ensures r.Keys == m.Keys
  {
    if Truthy(Get(m, field)) then m[field := Str(MaskToken)] else m
  }

  /**
   * The `forEach` over `fields`, applied to the spread copy `m`. A key is
   * masked exactly when it is one of `fields` and its value is truthy; the
   * mask string is itself truthy, so a repeated field changes nothing.
   */
  function MaskFields(m: map<string, Value>, fields: seq<string>): (r: map<string, Value>)
    ensures r.Keys == m.Keys
    ensures forall k :: k in m && k in fields && Truthy(m[k]) ==> r[k] == Str(MaskToken)
    ensures forall k :: k in m && !(k in fields && Truthy(m[k])) ==> r[k] == m[k]
    decreases |fields|
  {
    if |fields| == 0 then m
    else
      var r := MaskFields(MaskOne(m, fields[0]), fields[1..]);
      assert forall k :: k in fields <==> k == fields[0] || k in fields[1..];
      r
  }

  /** `maskSensitiveData(data)`: returns a masked copy; `data` itself is a value and cannot change. */
  function MaskSensitiveData(data: map<string, Value>): (r: map<string, Value>)
    ensures r.Keys == data.Keys
    ensures forall k :: k in data && k in SensitiveFields && Truthy(data[k]) ==> r[k] == Str(MaskToken)
    ensures forall k :: k in data && (k !in SensitiveFields || !Truthy(data[k])) ==> r[k] == data[k]
  {
    MaskFields(data, SensitiveFields)
  }

  /** Independent statement of what masking means, key by key. */
  function MaskReference(data: map<string, Value>): map<string, Value> {
    map k | k in data :: if k in SensitiveFields && Truthy(data[k]) then Str(MaskToken) else data[k]
  }

  /** The loop over the field list computes exactly the key-by-key definition. */
  lemma MaskMatchesReference(data: map<string, Value>)
    ensures MaskSensitiveData(data) == MaskReference(data)
  {
  }

  /** Masking twice is masking once. */
  lemma MaskIdempotent(data: map<string, Value>)
    ensures MaskSensitiveData(MaskSensitiveData(data)) == MaskSensitiveData(data)
  {
    var once := MaskSensitiveData(data);
    var twice := MaskSensitiveData(once);
    forall k | k in once
      ensures twice[k] == once[k]
    {
      if k in SensitiveFields && Truthy(once[k]) {
        assert Truthy(data[k]);
      }
    }
  }

  // --------------------------------------------------------------- login

  predicate Succeeded(o: Outcome) {
    o.Respond? && o.status == StatusOK && o.body.Json? && Get(o.body.fields, "success") == Bool(true)
  }

  /**
   * `POST /api/login`: 400 unless both `username` and `password` are truthy;
   * then logs the username and the masked body; 200 with a token exactly for
   * the fixed credential (compared with `===`), 401 otherwise.
   */
  function Login(r: JsRequest): (o: Outcome)
    ensures o.Respond?
    ensures o.status == StatusBadRequest <==> !Truthy(Get(r.body, "username")) || !Truthy(Get(r.body, "password"))
    ensures Succeeded(o) <==> Get(r.body, "username") == Str(AdminUser) && Get(r.body, "password") == Str(AdminPassword)
    ensures o.status == StatusOK || o.status == StatusBadRequest || o.status == StatusUnauthorized
    ensures o.status == StatusOK ==> Succeeded(o) && Get(o.body.fields, "token") == Str(IssuedToken)
    ensures o.status == StatusBadRequest ==> o.logs == []
    ensures o.status != StatusBadRequest ==>
              o.logs == [ConsoleLog([Str("Login attempt for user:"), Get(r.body, "username")]),
                         ConsoleLog([Str("Request body (masked):"), Obj(MaskSensitiveData(r.body))])]
    ensures o.status != StatusBadRequest ==> MaskSensitiveData(r.body)["password"] == Str(MaskToken)
  {
    var username := Get(r.body, "username");
    var password := Get(r.body, "password");
    if !Truthy(username) || !Truthy(password) then
      Respond(StatusBadRequest,
              Json(map["success" := Bool(false), "message" := Str("Username and password are required")]), [])
    else
      var logs := [ConsoleLog([Str("Login attempt for user:"), username]),
                   ConsoleLog([Str("Request body (masked):"), Obj(MaskSensitiveData(r.body))])];
      if username == Str(AdminUser) && password == Str(AdminPassword) then
        Respond(StatusOK, Json(map["success" := Bool(true), "message" := Str("Login successful"),
                                   "token" := Str(IssuedToken)]), logs)
      else
        Respond(StatusUnauthorized, Json(map["success" := Bool(false), "message" := Str("Invalid credentials")]), logs)
  }

  /** Masking hides any truthy password behind the same token. */
  lemma MaskIgnoresPassword(body: map<string, Value>, p1: Value, p2: Value)
    requires Truthy(p1) && Truthy(p2)
    ensures MaskSensitiveData(body["password" := p1]) == MaskSensitiveData(body["password" := p2])
  {
    var b1 := body["password" := p1];
    var b2 := body["password" := p2];
    var m1 := MaskSensitiveData(b1);
    var m2 := MaskSensitiveData(b2);
    assert m1.Keys == m2.Keys;
    forall k | k in m1
      ensures m1[k] == m2[k]
    {
      if k != "password" {
        assert b1[k] == b2[k];
      }
    }
  }

  /**
   * The raw password never reaches the log: login bodies that differ only in
   * a truthy password value produce identical log lines.
   */
  lemma LoginLogIgnoresPassword(r: JsRequest, p1: Value, p2: Value)
    requires Truthy(p1) && Truthy(p2)
    ensures Login(r.(body := r.body["password" := p1])).logs == Login(r.(body := r.body["password" := p2])).logs
  {
    MaskIgnoresPassword(r.body, p1, p2);
    var u := Get(r.body, "username");
    assert Get(r.body["password" := p1], "username") == u;
    assert Get(r.body["password" := p2], "username") == u;
  }

  // ------------------------------------------------------ bearer token

  /**
   * `authHeader.substring(7)` after the `startsWith("Bearer ")` check: defined
   * exactly for headers of the form "Bearer " + token, and the empty token is
   * accepted.
   */
  function BearerToken(authHeader: Option<string>): (t: Option<string>)
    ensures t.Some? <==> authHeader.Some? && HasPrefix(authHeader.value, BearerPrefix)
    ensures t.Some? ==> authHeader.value == BearerPrefix + t.value
  {
    match authHeader
    case None => None
    case Some(h) =>
      if h == "" || !HasPrefix(h, BearerPrefix) then None
      else Some(JsSubstring(h, 7, |h|))
  }

  /** Every token, the empty one included, survives the header round trip. */
  lemma BearerRoundTrip(token: string)
    ensures BearerToken(Some(BearerPrefix + token)) == Some(token)
  {
    assert (BearerPrefix + token)[..|BearerPrefix|] == BearerPrefix;
  }

  /** `token.substring(0, 10)`: JavaScript clamps, so this never throws. */
  function TokenPreview(token: string): (p: string)
    ensures |p| == if |token| < PreviewLength then |token| else PreviewLength
    ensures HasPrefix(token, p)
  {
    JsSubstring(token, 0, PreviewLength)
  }

  /**
   * `GET /api/data`: 401 without an Authorization header or without the
   * "Bearer " prefix; otherwise logs the token's first ten characters
   * followed by "..." and answers 200.
   */
  function ApiData(r: JsRequest): (o: Outcome)
    ensures o.Respond?
    ensures o.status == StatusOK <==> BearerToken(JsHeader(r.headers, "authorization")).Some?
    ensures o.status != StatusOK ==> o.status == StatusUnauthorized && o.logs == []
    ensures o.status == StatusOK ==>
              var token := BearerToken(JsHeader(r.headers, "authorization")).value;
              o.logs == [ConsoleLog([Str("API request with token:"), Str(TokenPreview(token) + "...")])]
  {
    var authHeader := JsHeader(r.headers, "authorization");
    if authHeader.None? || authHeader.value == "" then
      Respond(StatusUnauthorized, Json(map["error" := Str("Authorization header required")]), [])
    else if !HasPrefix(authHeader.value, BearerPrefix) then
      Respond(StatusUnauthorized,
              Json(map["error" := Str("Invalid authorization format. Use 'Bearer <token>'")]), [])
    else
      var token := JsSubstring(authHeader.value, 7, |authHeader.value|);
      Respond(StatusOK, Json(map["data" := Str("Sensitive API response"), "status" := Str("ok")]),
              [ConsoleLog([Str("API request with token:"), Str(TokenPreview(token) + "...")])])
  }

  // ------------------------------------------------------------- API key

  /**
   * `apiKeyAuth`: hands on to the route exactly when `x-api-key` is
   * "valid-api-key"; a missing, empty or different key is a 401.
   */
  function ApiKeyAuth(r: JsRequest): (g: Gate)
    ensures g.Proceed? <==> JsHeader(r.headers, "x-api-key") == Some(ValidApiKey)
    ensures g.Halt? ==> g.outcome.Respond? && g.outcome.status == StatusUnauthorized && g.outcome.logs == []
  {
    var apiKey := JsHeader(r.headers, "x-api-key");
    if apiKey.None? || apiKey.value == "" then
      Halt(Respond(StatusUnauthorized, Json(map["error" := Str("API key required. Use X-API-Key header.")]), []))
    else if apiKey.value == ValidApiKey then
      Proceed
    else
      Halt(Respond(StatusUnauthorized, Json(map["error" := Str("Invalid API key")]), []))
  }

  /** `GET /api/protected`: the route body runs only behind `apiKeyAuth`. */
  function Protected(r: JsRequest): (o: Outcome)
    ensures o.Respond?
    ensures o.status == StatusOK <==> JsHeader(r.headers, "x-api-key") == Some(ValidApiKey)
    ensures o.status != StatusOK ==> o.status == StatusUnauthorized
  {
    match ApiKeyAuth(r)
    case Proceed =>
      Respond(StatusOK, Json(map["message" := Str("Protected resource accessed successfully")]), [])
    case Halt(o) => o
  }

  // ------------------------------------------------------ profile update

  /**
   * `PUT /api/user/profile`: logs the masked body and answers 200. Every
   * listed key with a truthy value is logged as the mask; other fields
   * (`phone`, `email`) are logged as sent.
   */
  function UpdateProfile(r: JsRequest): (o: Outcome)
    ensures o.Respond? && o.status == StatusOK
    ensures o.body == Json(map["success" := Bool(true), "message" := Str("Profile updated successfully")])
    ensures o.logs == [ConsoleLog([Str("User update request:"), Obj(MaskSensitiveData(r.body))])]
    ensures o.logs[0].args[1].fields.Keys == r.body.Keys
    ensures forall k :: k in r.body && k in SensitiveFields && Truthy(r.body[k]) ==>
                          o.logs[0].args[1].fields[k] == Str(MaskToken)
    ensures forall k :: k in r.body && (k !in SensitiveFields || !Truthy(r.body[k])) ==>
                          o.logs[0].args[1].fields[k] == r.body[k]
  {
    Respond(StatusOK, Json(map["success" := Bool(true), "message" := Str("Profile updated successfully")]),
            [ConsoleLog([Str("User update request:"), Obj(MaskSensitiveData(r.body))])])
  }

  /**
   * Two profile updates that differ only in the truthy values of listed keys
   * log the same line: those values never reach the log.
   */
  lemma UpdateProfileLogIgnoresSensitive(r1: JsRequest, r2: JsRequest)
    requires r1.body.Keys == r2.body.Keys
    requires forall k :: k in r1.body ==>
                          r1.body[k] == r2.body[k] || (k in SensitiveFields && Truthy(r1.body[k]) && Truthy(r2.body[k]))
    ensures UpdateProfile(r1).logs == UpdateProfile(r2).logs
  {
    var m1 := MaskSensitiveData(r1.body);
    var m2 := MaskSensitiveData(r2.body);
    assert m1 == m2 by {
      forall k | k in m1
        ensures m1[k] == m2[k]
      {
      }
    }
  }
}

=== FILE: strings.dfy ===
/**
 * The string primitives the handlers rely on, with the semantics of the
 * language that calls them: Go's `strings.HasPrefix`, `strings.TrimPrefix`
 * and `s[:n]`, JavaScript's `String.prototype.substring`, and Go's `%d`.
 * Strings are sequences of characters; one character is one index unit.
 */
module Strings {
  import opened Wrappers

  /** Go's `strings.HasPrefix(s, prefix)` and JavaScript's `s.startsWith(prefix)`. */
  predicate HasPrefix(s: string, prefix: string)
    ensures HasPrefix(s, prefix) <==> |prefix| <= |s| && forall i :: 0 <= i < |prefix| ==> s[i] == prefix[i]
    ensures HasPrefix(s, prefix) ==> s == prefix + s[|prefix|..]
  {
    |prefix| <= |s| && s[..|prefix|] == prefix
  }

  /** `t` occurs somewhere inside `s`. */
  ghost predicate Occurs(t: string, s: string) {
    exists at :: 0 <= at <= |s| && HasPrefix(s[at..], t)
  }

  /** Go's `strings.TrimPrefix`: removes `prefix` once if present, else returns `s`. */
  function TrimPrefix(s: string, prefix: string): (r: string)
    ensures HasPrefix(s, prefix) ==> s == prefix + r
    ensures !HasPrefix(s, prefix) ==> r == s
  {
    if HasPrefix(s, prefix) then s[|prefix|..] else s
  }

  /**
   * Go's `s[:n]`: defined when 0 <= n <= len(s); any other `n` is a runtime
   * panic ("slice bounds out of range"), modelled as None.
   */
  function GoSliceTo(s: string, n: int): (r: Option<string>)
    ensures r.Some? <==> 0 <= n <= |s|
    ensures r.Some? ==> |r.value| == n && HasPrefix(s, r.value)
  {
    if 0 <= n <= |s| then Some(s[..n]) else None
  }

  /** JavaScript clamps a `substring` index into [0, length]. */
  function Clamp(x: int, len: nat): (r: nat)
    ensures r <= len
    ensures 0 <= x <= len ==> r == x
  {
    if x < 0 then 0 else if x > len then len else x
  }

  /**
   * JavaScript's `s.substring(start, end)`: both indices are clamped into
   * [0, |s|] and swapped when start > end, so it never throws.
   */
  function JsSubstring(s: string, start: int, end: int): (r: string)
    ensures |r| <= |s|
    ensures start <= 0 ==> r == s[..Clamp(end, |s|)]
    ensures 0 <= start <= |s| <= end ==> r == s[start..]
  {
    var a := Clamp(start, |s|);
    var b := Clamp(end, |s|);
    if a <= b then s[a..b] else s[b..a]
  }

  /** The digit character for 0 <= d < 10. */
  function Digit(d: nat): (c: char)
    requires d < 10
    ensures '0' <= c <= '9'
  {
    "0123456789"[d]
  }

  predicate IsDigit(c: char) {
    '0' <= c <= '9'
  }

  /** Go's `%d` for a non-negative int: shortest decimal rendering. */
  function DecimalString(n: nat): (r: string)
    ensures |r| >= 1
    ensures forall i :: 0 <= i < |r| ==> IsDigit(r[i])
    ensures r[0] == '0' ==> n == 0 && r == "0"
  {
    if n < 10 then [Digit(n)] else DecimalString(n / 10) + [Digit(n % 10)]
  }

  /** Reads a string of digits back as a number (the inverse of DecimalString). */
  function ParseDecimal(s: string): nat
    requires forall i :: 0 <= i < |s| ==> IsDigit(s[i])
  {
    if |s| == 0 then 0
    else
      var last := s[|s| - 1];
      assert IsDigit(last);
      ParseDecimal(s[..|s| - 1]) * 10 + (last as int - '0' as int)
  }

  lemma DigitValue(d: nat)
    requires d < 10
    ensures Digit(d) as int - '0' as int == d
  {
  }

  /** Rendering a count and reading it back gives the count: `%d` loses nothing. */
  lemma {:induction false} DecimalRoundTrip(n: nat)
    ensures ParseDecimal(DecimalString(n)) == n
  {
    var s := DecimalString(n);
    if n < 10 {
      DigitValue(n);
      assert s[..|s| - 1] == [];
    } else {
      DecimalRoundTrip(n / 10);
      DigitValue(n % 10);
      assert s[..|s| - 1] == DecimalString(n / 10);
    }
  }

  /** Distinct counts render to distinct strings. */
  lemma DecimalInjective(m: nat, n: nat)
    requires DecimalString(m) == DecimalString(n)
    ensures m == n
  {
    DecimalRoundTrip(m);
    DecimalRoundTrip(n);
  }
}

=== FILE: vuln_go.dfy ===
/**
 * The net/http server that takes credentials, tokens and personal data from
 * the query string (CWE-598): login, API and user-update handlers.
 */
module VulnGo {
  import opened Wrappers
  import opened Strings
  import opened Http
  import SafeGo

  // --------------------------------------------------------------- login

  /** The single log line of the login handler: the whole URL, query string included. */
  function LoginLogLine(r: GoRequest): LogLine {
    Printf("Login attempt: " + RenderUrl(r.url))
  }

  /**
   * `vulnerableLoginHandler`: reads `username` and `password` from the query,
   * logs the full URL, then answers 200 for the fixed credential and 401
   * otherwise. The method is never looked at.
   */
  function Login(r: GoRequest): (o: Outcome)
    ensures o.Respond? && o.logs == [LoginLogLine(r)]
    ensures o.status == StatusOK <==>
              GoQueryGet(r.url.query, "username") == AdminUser && GoQueryGet(r.url.query, "password") == AdminPassword
    ensures o.status != StatusOK ==> o.status == StatusUnauthorized
  {
    var username := GoQueryGet(r.url.query, "username");
    var password := GoQueryGet(r.url.query, "password");
    var logs := [LoginLogLine(r)];
    if username == AdminUser && password == AdminPassword then
      Respond(StatusOK, Text("Login successful for user: " + username), logs)
    else
      GoError(StatusUnauthorized, "Invalid credentials", logs)
  }

  /** Every method, GET included, reaches authentication with the same result. */
  lemma LoginIgnoresMethod(r: GoRequest, m: string)
    ensures Login(r.(httpMethod := m)) == Login(r)
  {
  }

  /**
   * Whatever the outcome, every password sent in the query appears verbatim
   * (as `password=<value>`) in the logged line.
   */
  lemma LoginLogLeaksPassword(r: GoRequest, i: nat)
    requires i < |r.url.query| && r.url.query[i].key == "password"
    ensures Occurs("password=" + r.url.query[i].value, Login(r).logs[0].text)
  {
    ParamInUrl(r.url, i);
    OccursShift("password=" + r.url.query[i].value, RenderUrl(r.url), "Login attempt: ", "");
    assert "Login attempt: " + RenderUrl(r.url) + "" == Login(r).logs[0].text;
  }

  // ----------------------------------------------------------------- API

  /**
   * `vulnerableAPIHandler` as written: 401 for an empty token, otherwise
   * `token[:10]`, which panics for tokens of one to nine characters. Go
   * counts bytes, so the threshold is exact for ASCII tokens.
   */
  function ApiHandlerAsWritten(r: GoRequest): (o: Outcome)
    ensures o.Crash? <==> 0 < |GoQueryGet(r.url.query, "token")| < PreviewLength
    ensures o.Respond? && o.status == StatusUnauthorized <==> GoQueryGet(r.url.query, "token") == ""
    ensures o.Respond? && o.status == StatusOK <==> |GoQueryGet(r.url.query, "token")| >= PreviewLength
  {
    var token := GoQueryGet(r.url.query, "token");
    if token == "" then
      GoError(StatusUnauthorized, "Token required", [])
    else
      match GoSliceTo(token, PreviewLength)
      case None => Crash([], "slice bounds out of range")
      case Some(preview) => Respond(StatusOK, Text("API response with token: " + preview + "..."), [])
  }

  /** A short token, `?token=abc`, makes the handler as written panic. */
  lemma ShortTokenPanics()
    ensures ApiHandlerAsWritten(GoRequest("GET", map[], false, "localhost", Url("/api/data", [Param("token", "abc")]))).Crash?
  {
    var ps := [Param("token", "abc")];
    assert ps[0].key == "token";
    assert GoQueryGet(ps, "token") == "abc";
  }

  /**
   * `vulnerableAPIHandler` with the preview bounded by `min`, as the safe
   * sample does: it never panics, and echoes at most the first ten
   * characters of a non-empty token.
   */
  function ApiHandler(r: GoRequest): (o: Outcome)
    ensures o.Respond?
    ensures o.status == StatusUnauthorized <==> GoQueryGet(r.url.query, "token") == ""
    ensures o.status != StatusUnauthorized ==>
              o.status == StatusOK &&
              o.body == Text("API response with token: " + SafeGo.TokenPreview(GoQueryGet(r.url.query, "token")) + "...")
  {
    var token := GoQueryGet(r.url.query, "token");
    if token == "" then
      GoError(StatusUnauthorized, "Token required", [])
    else
      Respond(StatusOK, Text("API response with token: " + SafeGo.TokenPreview(token) + "..."), [])
  }

  /** Where the handler as written does not panic, the bounded one answers the same. */
  lemma ApiHandlerAgreesWhenInBounds(r: GoRequest)
    requires !ApiHandlerAsWritten(r).Crash?
    ensures ApiHandler(r) == ApiHandlerAsWritten(r)
  {
  }

  // --------------------------------------------------------- user update

  /**
   * `vulnerableUserUpdateHandler`: no validation of any kind; the `ssn` and
   * `phone` query values are echoed verbatim in a 200 response.
   */
  function UserUpdate(r: GoRequest): (o: Outcome)
    ensures o.Respond? && o.status == StatusOK && o.body.Text? && o.logs == []
    ensures Occurs(GoQueryGet(r.url.query, "ssn"), o.body.text)
    ensures Occurs(GoQueryGet(r.url.query, "phone"), o.body.text)
  {
    var ssn := GoQueryGet(r.url.query, "ssn");
    var phone := GoQueryGet(r.url.query, "phone");
    var text := "Updated user info: SSN=" + ssn + ", Phone=" + phone;
    assert text[|"Updated user info: SSN="|..][..|ssn|] == ssn;
    assert text[|"Updated user info: SSN=" + ssn + ", Phone="|..][..|phone|] == phone;
    Respond(StatusOK, Text(text), [])
  }
}

=== FILE: vuln_js.dfy ===
/**
 * The Express server that takes credentials, tokens, API keys and card data
 * from the query string (CWE-598): `/login`, `/api/data`, `/api/external`
 * and `/payment`.
 */
module VulnJs {
  import opened Strings
  import opened JsValues
  import opened Http

  /** A `console.log` of a template literal: one string argument. */
  function TemplateLog(text: string): LogLine {
    ConsoleLog([Str(text)])
  }

  // --------------------------------------------------------------- login

  /**
   * `GET /login`: logs the original URL, then answers 200 exactly when
   * `req.query.username === "admin"` and `req.query.password === "secret123"`
   * (each sent once), 401 otherwise.
   */
  function Login(r: JsRequest): (o: Outcome)
    ensures o.Respond? && o.logs == [TemplateLog("Login attempt: " + RenderUrl(r.url))]
    ensures o.status == StatusOK <==>
              ExpressQueryGet(r.url.query, "username") == Str(AdminUser) &&
              ExpressQueryGet(r.url.query, "password") == Str(AdminPassword)
    ensures o.status != StatusOK ==> o.status == StatusUnauthorized
  {
    var username := ExpressQueryGet(r.url.query, "username");
    var password := ExpressQueryGet(r.url.query, "password");
    var logs := [TemplateLog("Login attempt: " + RenderUrl(r.url))];
    if username == Str(AdminUser) && password == Str(AdminPassword) then
      Respond(StatusOK, Json(map["success" := Bool(true), "message" := Str("Welcome, " + AdminUser + "!")]), logs)
    else
      Respond(StatusUnauthorized, Json(map["success" := Bool(false), "message" := Str("Invalid credentials")]), logs)
  }

  /** A login that sends `password` twice is refused, since `req.query.password` is then an array. */
  lemma RepeatedPasswordRefused(r: JsRequest, i: nat, j: nat)
    requires i < j < |r.url.query|
    requires r.url.query[i].key == "password" && r.url.query[j].key == "password"
    ensures Login(r).status == StatusUnauthorized
  {
    RepeatedKeyIsArray(r.url.query, "password", i, j);
  }

  lemma {:induction false} ValuesForCountsTwo(ps: seq<Param>, k: string, i: nat, j: nat)
    requires i < j < |ps| && ps[i].key == k && ps[j].key == k
    ensures |ValuesFor(ps, k)| >= 2
    decreases |ps|
  {
    if i == 0 {
      assert ps[1..][j - 1] == ps[j];
      assert |ValuesFor(ps[1..], k)| != 0;
    } else {
      assert ps[1..][i - 1] == ps[i] && ps[1..][j - 1] == ps[j];
      ValuesForCountsTwo(ps[1..], k, i - 1, j - 1);
    }
  }

  /** A parameter sent twice reads as an array in `req.query`. */
  lemma RepeatedKeyIsArray(ps: seq<Param>, k: string, i: nat, j: nat)
    requires i < j < |ps| && ps[i].key == k && ps[j].key == k
    ensures ExpressQueryGet(ps, k).Arr?
  {
    ValuesForCountsTwo(ps, k, i, j);
  }

  // ------------------------------------------------------------ API data

  /**
   * `GET /api/data`: 401 when `req.query.token` is falsy; a string token gets
   * 200 with a preview of its first ten characters, clamped by `substring`;
   * a repeated token is an array, and `token.substring` throws a TypeError.
   */
  function ApiData(r: JsRequest): (o: Outcome)
    ensures o.Respond? && o.status == StatusUnauthorized <==> !Truthy(ExpressQueryGet(r.url.query, "token"))
    ensures o.Crash? <==> ExpressQueryGet(r.url.query, "token").Arr?
    ensures o.Respond? && o.status == StatusOK <==> ExpressQueryGet(r.url.query, "token").Str? &&
                                                    ExpressQueryGet(r.url.query, "token").s != ""
    ensures o.Respond? && o.status == StatusOK ==>
              var token := ExpressQueryGet(r.url.query, "token").s;
              o.body.Json? && Get(o.body.fields, "tokenPreview") == Str(token[..if |token| < PreviewLength then |token| else PreviewLength] + "...")
  {
    var token := ExpressQueryGet(r.url.query, "token");
    if !Truthy(token) then
      Respond(StatusUnauthorized, Json(map["error" := Str("Token required")]), [])
    else if token.Str? then
      Respond(StatusOK, Json(map["data" := Str("Sensitive information"),
                                 "tokenPreview" := Str(JsSubstring(token.s, 0, PreviewLength) + "...")]), [])
    else
      Crash([], "TypeError: token.substring is not a function")
  }

  // -------------------------------------------------------- external API

  /** `GET /api/external`: 401 exactly when `req.query.api_key` is falsy, otherwise 200. */
  function External(r: JsRequest): (o: Outcome)
    ensures o.Respond? && o.logs == []
    ensures o.status == StatusUnauthorized <==> !Truthy(ExpressQueryGet(r.url.query, "api_key"))
    ensures o.status != StatusUnauthorized ==> o.status == StatusOK
  {
    if !Truthy(ExpressQueryGet(r.url.query, "api_key")) then
      Respond(StatusUnauthorized, Json(map["error" := Str("API key required")]), [])
    else
      Respond(StatusOK, Json(map["message" := Str("External API called successfully")]), [])
  }

  /** The key is refused only when it is absent or sent once and empty. */
  lemma ExternalRefusesOnlyMissingKey(r: JsRequest)
    ensures External(r).status == StatusUnauthorized <==> ValuesFor(r.url.query, "api_key") in {[], [""]}
  {
    var vs := ValuesFor(r.url.query, "api_key");
    if |vs| == 1 {
      assert vs == [vs[0]];
      assert vs in {[], [""]} <==> vs[0] == "";
    } else if |vs| > 1 {
      assert vs != [] && vs != [""];
    }
  }

  // ------------------------------------------------------------- payment

  /** `GET /payment`: logs the original URL and always answers "Payment processed". */
  function Payment(r: JsRequest): (o: Outcome)
    ensures o.Respond? && o.status == StatusOK
    ensures o.body == Json(map["message" := Str("Payment processed")])
    ensures o.logs == [TemplateLog("Payment request: " + RenderUrl(r.url))]
  {
    Respond(StatusOK, Json(map["message" := Str("Payment processed")]),
            [TemplateLog("Payment request: " + RenderUrl(r.url))])
  }

  /**
   * The login and payment log lines carry every query parameter verbatim:
   * passwords, card numbers and CVVs included.
   */
  lemma LogLinesLeakQuery(r: JsRequest, i: nat)
    requires i < |r.url.query|
    ensures Occurs(RenderParam(r.url.query[i]), Login(r).logs[0].args[0].s)
    ensures Occurs(RenderParam(r.url.query[i]), Payment(r).logs[0].args[0].s)
  {
    ParamInUrl(r.url, i);
    var t := RenderParam(r.url.query[i]);
    OccursShift(t, RenderUrl(r.url), "Login attempt: ", "");
    assert "Login attempt: " + RenderUrl(r.url) + "" == Login(r).logs[0].args[0].s;
    OccursShift(t, RenderUrl(r.url), "Payment request: ", "");
    assert "Payment request: " + RenderUrl(r.url) + "" == Payment(r).logs[0].args[0].s;
  }
}

=== FILE: wrappers.dfy ===
/** Optional values: an absent header, a failed body decode, a Go slice that panics. */
module Wrappers {

  datatype Option<+T> = None | Some(value: T) {

    /** The wrapped value, or `default` when there is none. */
    function GetOr(default: T): T {
      match this
      case Some(v) => v
      case None => default
    }
  }
}
